=== FILE: README.md ===
# Photomosaic core in Dafny

This is a model of the photomosaic pipeline of `main.py`, with proofs about it. The pipeline has four steps:

1. It scans a tile directory.
2. For every `.png` tile it computes the average colour over the pixels that are not fully transparent.
3. It writes a small thumbnail of each tile, named after that average colour (`r_g_b.png`).
4. It rebuilds a source image pixel by pixel. For each pixel it finds the tile whose average colour is nearest, decodes the thumbnail file named after the matched colour once into a cache (`images_source`), and pastes it on a canvas `ratio` times larger.

The model covers the integer logic of each step and the cache state machine of the composer.

Two tiles with the same average colour write the same file `./output/r_g_b.png` (main.py:41-45, 55), so the later tile's thumbnail overwrites the earlier one. The composer matches the first such entry but reloads that shared file, which holds the last such tile's thumbnail. The model keeps this behaviour: `decode` is a function of the path alone.

Modules, one per concern of the program:

- `Base`: 8-bit channels, RGB/RGBA colours, and images stored as rows of pixels, so `getpixel((x, y))` is `rows[y][x]`. It also holds `Option`, and a `Result` whose error side names the Python exception the code raises.
- `Text`: the string operations the program uses.
  - `str.lower`, which the model restricts to ASCII letters.
  - `str.endswith`.
  - `f"{n}"` for non-negative integers, with the parser that reads it back.
  - POSIX `os.path.join`.
- `Averager`: `moyenne_couleur_sans_transparence`. It has a reference definition (`OpaqueMean`) and the accumulating loop (`AverageColour`), and a proof that the two agree.
- `Thumbnail`: the non-pixel part of `creer_et_redimensionner_image`. That is the truncated dimensions, the output file name for a string or a colour key, and the path the file is written to.
- `Library`: `traiter_images_png` over a directory listing that is given as input.
- `Matcher`: `chercher_couleur`. The scan compares squared integer distances, seeded with `1000 * 1000`. For 8-bit channels this takes the same branch at every step as the scan over `math.sqrt` distances seeded with 1000.
- `Composer`: `creer_image_et_ajouter`.
  - The row-major double loop is split into `Compose`, `ComposeRows`, `ComposeRow` and `Visit`.
  - `Visit` fills a cache slot on an entry's first hit.
  - A paste is recorded as its origin plus the index of the decoded bitmap it uses.
  - Decoding a thumbnail file is a function parameter `decode` from path to bitmap.
- `Cli`: the source-extension check of the entry point, and the path it writes the resized source image to.

## Model

| member | source | states |
|---|---|---|
| Averager.OpaqueMean | main.py:10-23 | The average is black when no pixel has alpha ≠ 0. Otherwise, for each channel c, `mean * count <= sum < (mean + 1) * count`, where the sum and count run over the pixels with alpha ≠ 0. That makes it the floor of the mean. |
| Averager.FloorMean | main.py:23 | One channel of the average is a byte (0..255) and is the floor of the channel sum divided by the count. |
| Averager.ChannelSumBound | main.py:13-18 | A channel total never exceeds 255 times the count of pixels with alpha ≠ 0. |
| Averager.AverageColour | main.py:10-23 | The accumulating loop, with its running totals, count and final integer division, returns exactly the reference average `OpaqueMean`. |
| Averager.TransparentImageIsBlack | main.py:20-21 | An image whose pixels all have alpha 0, including an empty image, averages to exactly (0, 0, 0). |
| Thumbnail.TruncDiv | main.py:33-34 | `int()` of an exact quotient rounds toward zero: for a non-negative numerator q·b ≤ a < (q+1)·b, and for a negative one (q−1)·b < a ≤ q·b. |
| Thumbnail.ThumbnailSize | main.py:29-34 | It fails with ZeroDivisionError exactly when both sides are 0. In exact arithmetic the larger side becomes exactly `pixel_max`; Python's float product can give `pixel_max - 1` (see Left out). For `pixel_max >= 0` both sides lie in 0..pixel_max, and each is the floor of `side * pixel_max / max(w, h)`. |
| Thumbnail.ScaledSideBound | main.py:30-34 | In exact arithmetic, a side equal to the maximum scales to exactly `pixel_max` (Python's float product can give `pixel_max - 1`; see Left out). No side scales past `pixel_max` when `pixel_max >= 0`. |
| Thumbnail.ThumbnailSizeNegates | main.py:32-34 | The sizes are truncated, not floored: a negative `pixel_max` gives exactly the negated sizes of its absolute value. Such sizes are then rejected by the resize at main.py:36. |
| Thumbnail.ThumbnailKeepsOrientation | main.py:29-34 | After resizing, the shorter side is still no longer than the other side. |
| Thumbnail.ColourFileName | main.py:41 | `f"{r}_{g}_{b}.png"`: the colour's three decimals joined by `_`, then `.png`. Its partners are `ColourFileNameRoundTrip` (the name parses back to the colour) and `ColourFileNameInjective`. |
| Thumbnail.FileName | main.py:38-41 | The name always ends in `.png`. For a string key, removing `.png` gives back the key. For a colour key, the name parses back to that colour. |
| Thumbnail.ColourFileNameRoundTrip | main.py:41 | `r_g_b.png` parses back to the colour (r, g, b). |
| Thumbnail.ColourFileNameInjective | main.py:41 | Two colours get the same file name if and only if they are equal. |
| Thumbnail.CreateThumbnail | main.py:28-43 | It fails exactly when both sides of the image are 0. The written path ends in `.png`. In exact arithmetic the longer side of the copy is `pixel_max` (see Left out for the float product). |
| Text.Decimal | main.py:41 | `f"{n}"` is a non-empty string of digits with no leading zero. |
| Text.DecimalRoundTrip | main.py:41 | Reading the digits of `f"{n}"` gives back n. |
| Text.Lower | main.py:51 | `str.lower` on ASCII: no upper-case letter is left, each upper-case letter becomes the lower-case letter at the same place in the alphabet, and every other character is kept. `LowerIdempotent` and `LowerEndsWith` (a case-insensitive suffix test) are stated about it. |
| Text.EndsWith | main.py:51 | `str.endswith`: the suffix is no longer than the string and equals its last characters. `LowerEndsWith` relates it to the character-wise definition `EndsWithIgnoringCase`. |
| Text.LowerEndsWith | main.py:51 | `name.lower().endswith(s)` holds exactly when the last characters of the name, each lower-cased, spell `s`. |
| Text.PathJoin | main.py:43 | POSIX `os.path.join` of two components, also used at main.py:52: an absolute name replaces the directory, and otherwise a `/` is inserted only when the directory lacks a trailing one. `PathJoinShape` states the shape of the result. |
| Text.PathJoinShape | main.py:43 | The joined path ends with the name; a relative name is placed after the directory, and when the directory lacks a trailing `/` the path is exactly directory, `/`, name. |
| Library.IsTileName | main.py:51 | The scan's filter `nom_fichier.lower().endswith(".png")`. `TileNamesCount` and `KeptNameSurvives` state which listed names it keeps. |
| Library.TileNames | main.py:50-51 | Every name kept is a listed name whose lower-cased form ends in `.png`. |
| Library.TileNamesCount | main.py:50-51 | A listed `.png` name, in any case, is kept as many times as it is listed. Any other name is kept zero times. |
| Library.TileNamesAppend | main.py:50-51 | The kept names follow listing order: filtering a concatenated listing gives the filtered parts, concatenated. |
| Library.TileNamesStep | main.py:50-51 | One more listed name adds that name to the kept names exactly when it passes the `.png` test. |
| Library.KeptNameSurvives | main.py:50-51 | A listed name that passes the test is among the kept names. |
| Library.BuildEntry | main.py:52-55 | For one kept image, it fails with ZeroDivisionError exactly when both sides of the image are 0. Otherwise it yields the entry `[average, None]` and the thumbnail named after that average. |
| Library.BuildLibrary | main.py:48-56 | It fails, with ZeroDivisionError, exactly when some kept image has both sides 0. Otherwise kept name i yields entry `[average colour, None]`, with its slot unset, and a thumbnail named after that colour. |
| Matcher.SeedExceedsEveryDistance | main.py:93-94 | No distance between 8-bit colours reaches the seed of 1000, so the first entry always replaces the seed. |
| Matcher.SquaredDistance | main.py:93 | The square of the Euclidean distance between the entry colour and the pixel colour, over the three channels. `DistanceZeroIffEqual` and `SeedExceedsEveryDistance` bound it. |
| Matcher.DistanceZeroIffEqual | main.py:93 | The distance is zero if and only if the colours are equal. |
| Matcher.Scan | main.py:94-100 | The scan starting from `indice = -1` returns -1 if and only if the library is empty, and otherwise an index into the library. |
| Matcher.ScanFindsFirstNearest | main.py:96-99 | The strict-`<` scan, resumed at any position with the best-so-far over the prefix, returns the first index of minimal distance. |
| Matcher.NearestIndex | main.py:90-100 | It returns -1 if and only if the library is empty, and otherwise an index into the library. |
| Matcher.NearestIndexIsFirstNearest | main.py:90-100 | For a non-empty library the index returned has minimal distance, and every earlier index is strictly farther. |
| Matcher.FirstNearestIsUnique | main.py:96-99 | At most one index meets that description, so the tie-break determines the answer. |
| Matcher.ExactColourIsFound | main.py:90-100 | A query equal to some entry's colour finds the first entry with that colour. |
| Composer.ColourPath | main.py:75 | Joining `./output` with the colour file name gives the path the composer reloads, `./output/r_g_b.png`. |
| Composer.ReloadPath | main.py:75 | The f-string path `./output/{r}_{g}_{b}.png` the composer opens for an entry. `ColourPath` and `ReloadPathIsThumbnailPath` show it is the path the thumbnail was written to. |
| Composer.ReloadPathIsThumbnailPath | main.py:75 | For a tile with a side above 0, the thumbnail is written, and the path the composer reloads for an entry is exactly the path that `creer_et_redimensionner_image` wrote for that entry's colour in `./output` (main.py:38-43). |
| Composer.RowMajor | main.py:70-71 | The cells in the order of the double loop, `y` outer and `x` inner. `RowMajorBounds`, `RowMajorLength`, `RowMajorIsOrdered`, `RowMajorCovers` and `RowMajorPrefix` state its shape. |
| Composer.RowMajorBounds | main.py:70-71 | Every visited cell lies inside the image. |
| Composer.RowMajorLength | main.py:70-71 | There are width × height visits. |
| Composer.RowMajorIsOrdered | main.py:70-71 | The visits are strictly increasing, y first and then x. Together with the length and coverage, each pixel is visited exactly once, y outer and x inner. |
| Composer.RowMajorCovers | main.py:70-72 | Every pixel (x, y) of the source is visited. |
| Composer.RowMajorPrefix | main.py:70-71 | The visits of the first y rows are a prefix of all visits, and row y follows them left to right. |
| Composer.Matches | main.py:72-73 | Each visited cell gets one `chercher_couleur` result, and every result is a valid library index unless the library is empty, when it is -1. `MatchesRow` and `AllRowsAligned` place each result at its pixel and state that it is the nearest entry. |
| Composer.FirstHitsMembers | main.py:73-76 | An entry is in the decode order exactly when some visited pixel so far matched it. |
| Composer.FirstHitsNoDuplicates | main.py:74-76 | No entry appears twice in the decode order. |
| Composer.FirstHitsOfPrefix | main.py:74-76 | The decode order after k pixels is a prefix of the order after more pixels: a bitmap's position in the cache never changes. |
| Composer.FirstHitsCount | main.py:74-76 | The decode order is as long as the number of distinct entries matched. |
| Composer.MatchesRow | main.py:70-73 | The matches of row y come right after those of the rows above it, and match x is the nearest entry to pixel (x, y). |
| Composer.AllRowsAligned | main.py:70-73 | In the visiting order and the matches, every row y sits right after the rows above it: visit `base + x` is pixel (x, y), and it matches the nearest entry to that pixel. |
| Composer.ScaleIsProduct | main.py:78 | The scaled coordinate of a paste is `v * ratio`. |
| Composer.CachedExtend | main.py:74-76 | Decoding the bitmap of an entry whose slot is unset, and storing it in the next slot, keeps the cache consistent: bitmap i was decoded for the entry whose slot holds i. |
| Composer.PlacedExtend | main.py:78 | Recording one more paste at the scaled position of the next visited pixel keeps every earlier paste valid. |
| Composer.PlacedFill | main.py:74-78 | Filling the unset slot of the newly matched entry leaves every earlier paste's slot in place, since no earlier pixel matched that entry. |
| Composer.SlotHoldsBitmap | main.py:74-77 | A filled slot indexes a decoded bitmap, and that bitmap was decoded from the thumbnail named after the entry's colour. |
| Composer.PasteOfVisit | main.py:72-78 | The paste made at the visit of pixel (x, y) goes to `(x*ratio, y*ratio)` and uses the bitmap decoded for the entry that pixel matched. |
| Composer.TileOfVisit | main.py:70-78 | In a row aligned with the visiting order, the paste for pixel (x, y) is at `(x*ratio, y*ratio)`, with the bitmap of the entry nearest to the pixel. |
| Composer.FirstHitComposed | main.py:74-78 | On a first hit, the invariant of the pixel loop holds after decoding, filling the slot and pasting. |
| Composer.RepeatHitComposed | main.py:77-78 | On a repeat hit, pasting with the cached slot keeps the invariant of the pixel loop, and no slot changes. |
| Composer.Visit | main.py:72-78 | One pixel step keeps the invariant. It decodes a bitmap if and only if the matched entry's slot was unset, and it only appends bitmaps. Filled slots never change, and the matched slot is filled afterwards. The new paste goes to the scaled origin `(Scale(x, ratio), Scale(y, ratio))` with that slot's bitmap; `ScaleIsProduct` makes that `(x*ratio, y*ratio)`. |
| Composer.ComposeRow | main.py:71-78 | The inner loop over one row raises IndexError exactly when the library is empty and the row is non-empty. Otherwise it adds one paste per pixel of the row and keeps the invariant. |
| Composer.ComposeRows | main.py:70-78 | The outer loop raises IndexError exactly when the library is empty and the image is non-empty. Otherwise it makes one paste per visited pixel and keeps the invariant. |
| Composer.Compose | main.py:58-78 | It raises ValueError when a canvas side `size * ratio` is negative. It raises IndexError when the library is empty and the source has pixels. Otherwise the canvas is `(w*ratio) × (h*ratio)`, and the decoded bitmaps, the slots and the pastes are those described by `Mosaicked`. |
| Composer.DecodedOncePerEntry | main.py:73-76 | The composed mosaic holds as many decoded bitmaps as there are distinct matched entries, and no entry is decoded twice. |
| Composer.PixelTile | main.py:70-78 | In a finished mosaic, for source pixel (x, y), the paste made at its visit has origin `(x*ratio, y*ratio)`. Its bitmap is the thumbnail decoded for the entry nearest to the pixel's colour. |
| Cli.SourceImageNameIgnoresCase | main.py:107 | The source name is accepted exactly when it ends in `.png`, `.jpg` or `.jpeg`, in any mix of case. Lower-casing the name first does not change the verdict. |
| Cli.IsSourceImageName | main.py:107 | The entry point's test on the lower-cased name for `.png`, `.jpg` or `.jpeg`. `SourceImageNameIgnoresCase` states it as a case-insensitive suffix test. |
| Cli.SourceThumbnailPath | main.py:109 | Resizing the chosen image under the name `source` into `.` writes `./source.png`, the file the composer opens (main.py:62), at the size the thumbnail rule gives in exact arithmetic. |

## Left out

- Image I/O is not modelled. That covers `Image.open`, `convert("RGBA")`, `getdata`, `getpixel`, `save`, `os.makedirs`, `os.listdir` and `os.remove`.
  - Image contents are inputs: pixel rows, a directory listing, an `open` function from path to image for the library build, and a `decode` function from path to bitmap for the composer.
  - Saving is reduced to the path and size it would use.
- Lanczos resampling (main.py:36) and the pixel values produced by the alpha-masked `paste` (main.py:78) are imaging-library numerics. Only the size of each resize, and the origin and bitmap of each paste, are recorded. How the imaging library treats a zero or negative resize size is not modelled; see the lines on `Thumbnail.CreateThumbnail`, `Library.BuildEntry` and `Library.BuildLibrary` below.
- Floating point is not modelled.
  - ThumbnailSize uses exact rational arithmetic followed by truncation toward zero. Python computes `pixel_max / max_dim` as a float, multiplies, and truncates (main.py:32-34). In exact arithmetic the larger side is always exactly `pixel_max`, which sits on a truncation boundary, so a float product just below it gives `pixel_max - 1` for the larger side itself.
  - Example: `11 * (30 / 11)` is 29.999999999999996 in doubles, so an 11×11 tile at `pixel_max` 30 becomes 29×29, while the model gives 30×30. At 30 this happens for `max_dim` 11, 13, 22, 26, 44, 52, 55 and 88, which is 8 of the first 100 sizes. The shorter side can be one lower in the same way.
  - NearestIndex compares squared integer distances instead of `math.sqrt` values. The square root is strictly increasing, and every reachable distance is below the seed, so the branches taken are identical.
- Text.Lower folds only the ASCII letters `A`–`Z`. Python's `str.lower` also folds other Unicode letters, and some of those, such as U+212A KELVIN SIGN (to `k`), lower-case to ASCII. The suffix verdicts still agree with Python's because no non-ASCII character lower-cases to a string containing `.`, `p`, `n`, `g`, `j` or `e`. So the characters that can spell `.png`, `.jpg` or `.jpeg` at the end of the lowered name come one-to-one from the ASCII characters at the end of the name.
- Thumbnail.CreateThumbnail: the stated failure condition is the ZeroDivisionError when both sides are 0. It leaves out the ValueError that `img.resize` (main.py:36) raises when a truncated side is below 1, e.g. a 100×2 image at `pixel_max` 30 gives the size (30, 0). Whether the imaging library raises depends on its own size checks, which are not modelled. The stated longer side, exactly `pixel_max`, holds in exact arithmetic only; Python's float product can make it `pixel_max - 1` (an 11×11 tile at 30 gives 29×29), as described under floating point above.
- Thumbnail.ScaledSideBound: a side equal to the maximum scales to exactly `pixel_max` in exact arithmetic only; with Python's float product it can be `pixel_max - 1`, as described under floating point above.
- Thumbnail.ThumbnailSize: the larger side is exactly `pixel_max` in exact arithmetic only; with Python's float product it can be `pixel_max - 1`, as described under floating point above.
- Cli.SourceThumbnailPath: the size stated is the exact-arithmetic thumbnail size; the program's float product can make each side one smaller (an 11×11 source at 30 gives 29×29), as described under floating point above.
- Library.BuildEntry: fails only on both sides 0, as above; the resize failure for a side truncated to 0 is left out for the same reason.
- Library.BuildLibrary: fails only when some kept image has both sides 0, as above; the resize failure for a side truncated to 0 is left out for the same reason.
- Compose: requires every library slot to be unset on entry. The only caller passes a freshly built library, and `BuildLibrary` produces exactly that. The Python function itself would also accept a library left over from an earlier run. Since `images_source` starts empty on every call (main.py:60), a stale slot at or beyond the bitmaps decoded so far makes `images_source[images[indice][1]]` (main.py:77) raise an uncaught IndexError; re-running on the same source fails at the first pixel. A stale slot that happens to be below that count instead pastes whichever bitmap this run stored there, which can be the wrong tile.
- The `try/except FileNotFoundError` path (main.py:59, 87-88) is not modelled. Neither is a missing `source.png` or a missing thumbnail: `decode` is total.
- The code raises no dedicated tile-load or tile-decode errors. The model follows the code's actual exceptions:
  - ZeroDivisionError for a tile whose sides are both 0 during the library build;
  - ValueError from `Image.new` for a negative canvas;
  - IndexError from `images[-1]` when the library is empty.
- Interactive input, printing, and the `int(input())` conversions of the entry point (main.py:103-113, 46, 83) are left out. Only the extension check (line 107) and the path of the resized source (line 109) are modelled.
- Image modes other than RGB/RGBA are out of scope. A pixel's colour for matching is its first three channels; alpha is ignored, as at main.py:93.
- parser.py, parser.js and test-all.js are not part of this model: they wrap external grammar parsers and have no photomosaic logic. Neither are the repository's example fixture files, which are parser inputs.

=== FILE: arith.dfy ===
/**
 Facts about multiplication and Euclidean division that the solver does
 not find on its own.
 */
module Arith {

  lemma MulNonNegative(x: int, y: int)
    requires x >= 0 && y >= 0
    ensures x * y >= 0
  {
  }

  lemma MulAtLeastOnce(d: int, m: int)
    requires m >= 0
    ensures d >= 1 ==> d * m >= m
    ensures d <= -1 ==> d * m <= 0 - m
  {
    if d >= 1 {
      MulNonNegative(d - 1, m);
    } else if d <= -1 {
      MulNonNegative(-d - 1, m);
    }
  }

  /** A quotient is determined by any decomposition with a remainder in range. */
  lemma DivUnique(a: int, m: int, q: int, r: int)
    requires m > 0 && 0 <= r < m && a == q * m + r
    ensures a / m == q
  {
    var q0, r0 := a / m, a % m;
    assert (q - q0) * m == r0 - r;
    MulAtLeastOnce(q - q0, m);
  }

  lemma MulDivCancel(m: nat, k: int)
    requires m > 0
    ensures (m * k) / m == k
  {
    DivUnique(m * k, m, k, 0);
  }

  lemma MonotoneDiv(a: int, b: int, m: nat)
    requires a <= b && m > 0
    ensures a / m <= b / m
  {
    var qa, qb := a / m, b / m;
    assert (qa - qb) * m == (a - a % m) - (b - b % m);
    MulAtLeastOnce(qa - qb, m);
  }

  /** The quotient rounds down: the numerator lies in the quotient's band. */
  lemma DivisionBounds(a: int, m: int)
    requires m > 0
    ensures (a / m) * m <= a < (a / m + 1) * m
  {
    var q, r := a / m, a % m;
    assert a == q * m + r;
    assert (q + 1) * m == q * m + m;
  }

  lemma MulMonotone(x: int, y: int, k: int)
    requires x <= y && k >= 0
    ensures x * k <= y * k
  {
    MulNonNegative(y - x, k);
    assert (y - x) * k == y * k - x * k;
  }

  /** A quotient whose band lies below `c * b` is at most `c`. */
  lemma BandBelow(q: int, a: int, b: int, c: int)
    requires b > 0 && q * b <= a <= c * b
    ensures q <= c
  {
    assert (q - c) * b == q * b - c * b;
    MulAtLeastOnce(q - c, b);
  }

  /** A non-negative numerator has a non-negative quotient. */
  lemma BandNonNegative(q: int, a: int, b: int)
    requires b > 0 && 0 <= a < (q + 1) * b
    ensures q >= 0
  {
    MulAtLeastOnce(q + 1, b);
  }
}

=== FILE: averager.dfy ===
/**
 The average colour of an image over its non-transparent pixels
 (`moyenne_couleur_sans_transparence`).
 */
module Averager {
  import opened Base
  import opened Arith

  /** A pixel takes part in the average unless its alpha is exactly 0. */
  predicate Counted(p: Rgba) {
    p.a != 0
  }

  /** How many pixels take part in the average. */
  function CountedPixels(pixels: seq<Rgba>): nat {
    if |pixels| == 0 then 0
    else CountedPixels(pixels[..|pixels| - 1]) + (if Counted(pixels[|pixels| - 1]) then 1 else 0)
  }

  /** Sum of one channel over the pixels that take part. */
  function ChannelSum(pixels: seq<Rgba>, c: Channel): nat {
    if |pixels| == 0 then 0
    else
      var p := pixels[|pixels| - 1];
      ChannelSum(pixels[..|pixels| - 1], c) + (if Counted(p) then p.Get(c) else 0)
  }

  /** A channel sum never exceeds 255 per counted pixel. */
  lemma {:induction false} ChannelSumBound(pixels: seq<Rgba>, c: Channel)
    ensures ChannelSum(pixels, c) <= 255 * CountedPixels(pixels)
  {
    if |pixels| > 0 {
      ChannelSumBound(pixels[..|pixels| - 1], c);
    }
  }

  /**
   The reference definition: per channel, the floor of the mean over the
   counted pixels, or black when no pixel is counted.
   */
  function OpaqueMean(pixels: seq<Rgba>): (m: Rgb)
    ensures CountedPixels(pixels) == 0 ==> m == Rgb(0, 0, 0)
    ensures CountedPixels(pixels) > 0 ==>
      forall c: Channel ::
        m.Get(c) * CountedPixels(pixels) <= ChannelSum(pixels, c) < (m.Get(c) + 1) * CountedPixels(pixels)
  {
    var n := CountedPixels(pixels);
    if n == 0 then Rgb(0, 0, 0)
    else
      var m := Rgb(FloorMean(pixels, Red), FloorMean(pixels, Green), FloorMean(pixels, Blue));
      assert forall c: Channel :: m.Get(c) == FloorMean(pixels, c);
      m
  }

  /** One channel of the average: the channel sum divided by the count, rounded down. */
  function FloorMean(pixels: seq<Rgba>, c: Channel): (q: Byte)
    requires CountedPixels(pixels) > 0
    ensures q * CountedPixels(pixels) <= ChannelSum(pixels, c) < (q + 1) * CountedPixels(pixels)
  {
    var s, n := ChannelSum(pixels, c), CountedPixels(pixels);
    ChannelSumBound(pixels, c);
    assert 255 * n == n * 255;
    MonotoneDiv(s, n * 255, n);
    MulDivCancel(n, 255);
    DivisionBounds(s, n);
    s / n
  }

  /** An image with no counted pixel, the empty image included, averages to black. */
  lemma TransparentImageIsBlack(pixels: seq<Rgba>)
    requires forall i :: 0 <= i < |pixels| ==> pixels[i].a == 0
    ensures OpaqueMean(pixels) == Rgb(0, 0, 0)
  {
    NoCountedPixels(pixels);
  }

  lemma {:induction false} NoCountedPixels(pixels: seq<Rgba>)
    requires forall i :: 0 <= i < |pixels| ==> pixels[i].a == 0
    ensures CountedPixels(pixels) == 0
  {
    if |pixels| > 0 {
      NoCountedPixels(pixels[..|pixels| - 1]);
    }
  }

  /**
   The accumulating loop of the source: running totals and a count over
   the pixels with non-zero alpha, then integer division.
   */
  method AverageColour(pixels: seq<Rgba>) returns (colour: Rgb)
    ensures colour == OpaqueMean(pixels)
  {
    var totalR, totalG, totalB, count := 0, 0, 0, 0;
    var i := 0;
    while i < |pixels|
      invariant 0 <= i <= |pixels|
      invariant count == CountedPixels(pixels[..i])
      invariant totalR == ChannelSum(pixels[..i], Red)
      invariant totalG == ChannelSum(pixels[..i], Green)
      invariant totalB == ChannelSum(pixels[..i], Blue)
    {
      assert pixels[..i + 1][..i] == pixels[..i];
      var p := pixels[i];
      if p.a != 0 {
        totalR := totalR + p.r;
        totalG := totalG + p.g;
        totalB := totalB + p.b;
        count := count + 1;
      }
      i := i + 1;
    }
    assert pixels[..i] == pixels;
    if count == 0 {
      return Rgb(0, 0, 0);
    }
    assert totalR / count == FloorMean(pixels, Red);
    assert totalG / count == FloorMean(pixels, Green);
    assert totalB / count == FloorMean(pixels, Blue);
    colour := Rgb(totalR / count, totalG / count, totalB / count);
  }
}

=== FILE: base.dfy ===
/**
 The value types shared by every stage of the photomosaic pipeline: 8-bit
 channels, RGB and RGBA colours, decoded images, and the Option/Result
 wrappers used for Python's `None` and for the exceptions the pipeline
 lets escape.
 */
module Base {

  /** One 8-bit colour channel, as PIL hands it out for RGB/RGBA images. */
  type Byte = x: int | 0 <= x < 256

  /** The three colour channels an average or a distance is taken over. */
  datatype Channel = Red | Green | Blue

  /** An opaque colour triple: an average colour, the key of a tile. */
  datatype Rgb = Rgb(r: Byte, g: Byte, b: Byte) {
    function Get(c: Channel): Byte {
      match c
      case Red => r
      case Green => g
      case Blue => b
    }
  }

  /** One pixel of an image converted to RGBA. */
  datatype Rgba = Rgba(r: Byte, g: Byte, b: Byte, a: Byte) {
    function Get(c: Channel): Byte {
      match c
      case Red => r
      case Green => g
      case Blue => b
    }

    /** The first three components, which is all the matcher looks at. */
    function Colour(): Rgb {
      Rgb(r, g, b)
    }
  }

  /**
   A decoded image. `rows[y][x]` is the pixel PIL's `getpixel((x, y))`
   returns; `Data()` is the row-major sequence `getdata()` returns.
   */
  datatype Image = Image(width: nat, height: nat, rows: seq<seq<Rgba>>) {
    ghost predicate Valid() {
      && |rows| == height
      && forall y :: 0 <= y < |rows| ==> |rows[y]| == width
    }

    function Data(): seq<Rgba> {
      Flatten(rows)
    }
  }

  /** Concatenation of the rows, top row first. */
  function Flatten<T>(rows: seq<seq<T>>): seq<T> {
    if |rows| == 0 then [] else Flatten(rows[..|rows| - 1]) + rows[|rows| - 1]
  }

  datatype Option<T> = None | Some(value: T)

  /** The Python exceptions the modelled code can raise and does not catch. */
  datatype PyError =
    | ZeroDivisionError  // `pixel_max / max_dim` on an image whose sides are both 0
    | ValueError         // `Image.new` asked for a negative size
    | IndexError         // `images[-1]` on an empty tile library

  datatype Result<T> = Ok(value: T) | Err(error: PyError)
}

=== FILE: cli.dfy ===
/**
 The parts of the interactive entry point that are not I/O: which source
 file names are accepted, and where the resized source image is written
 for the composer to open.
 */
module Cli {
  import opened Base
  import opened Text
  import opened Thumbnail

  /** The source-name test: lower-cased, the name ends in `.png`, `.jpg` or `.jpeg`. */
  predicate IsSourceImageName(name: string) {
    var n := Lower(name);
    EndsWith(n, ".png") || EndsWith(n, ".jpg") || EndsWith(n, ".jpeg")
  }

  /** The test accepts exactly the names with one of the three extensions in any mix of case. */
  lemma SourceImageNameIgnoresCase(name: string)
    ensures IsSourceImageName(name) <==>
      || EndsWithIgnoringCase(name, ".png")
      || EndsWithIgnoringCase(name, ".jpg")
      || EndsWithIgnoringCase(name, ".jpeg")
    ensures IsSourceImageName(name) <==> IsSourceImageName(Lower(name))
  {
    LowerEndsWith(name, ".png");
    LowerEndsWith(name, ".jpg");
    LowerEndsWith(name, ".jpeg");
    LowerIdempotent(name);
  }

  /**
   The entry point resizes the chosen image under the name `source` into
   the current directory; that is the file `./source.png`, the one the
   composer then opens, at the size the thumbnail rule gives.
   */
  lemma SourceThumbnailPath(img: Image, size: int)
    requires img.width > 0 || img.height > 0
    ensures CreateThumbnail(img, Named("source"), size, ".")
      == Ok(Thumb("./source.png", ThumbnailSize(img.width, img.height, size).value))
  {
    var name := FileName(Named("source"));
    assert name == "source.png";
    assert name[0] != '/';
    assert PathJoin(".", name) == "./source.png";
  }
}

=== FILE: composer.dfy ===
/**
 The mosaic composition loop (`creer_image_et_ajouter`): every pixel of the
 source image, top row first and left to right within a row, is matched to
 a library entry, whose thumbnail is decoded on its first match and
 reused afterwards, and pasted at the pixel's position scaled by `ratio`.

 Decoding a thumbnail file is the function parameter `decode`; the pixels a
 paste produces are not modelled, only where each paste goes and which
 decoded bitmap it uses.
 */
module Composer {
  import opened Base
  import opened Text
  import opened Thumbnail
  import opened Library
  import opened Matcher

  /** The path the composer reloads the thumbnail of colour `c` from. */
  function ReloadPath(c: Rgb): string {
    "./output/" + ColourFileName(c)
  }

  /** The composer reads back exactly the file the library scan wrote for that colour. */
  lemma ReloadPathIsThumbnailPath(img: Image, c: Rgb, size: int)
    requires img.width > 0 || img.height > 0
    ensures CreateThumbnail(img, Keyed(c), size, OutputDir).Ok?
    ensures CreateThumbnail(img, Keyed(c), size, OutputDir).value.path == ReloadPath(c)
  {
    var name := FileName(Keyed(c));
    ColourPath(c);
    assert CreateThumbnail(img, Keyed(c), size, OutputDir).value.path == PathJoin(OutputDir, name);
  }

  lemma ColourPath(c: Rgb)
    ensures PathJoin(OutputDir, FileName(Keyed(c))) == ReloadPath(c)
  {
    var name := ColourFileName(c);
    assert FileName(Keyed(c)) == name;
    ColourFileNameHead(c);
    PathJoinShape(OutputDir, name);
    assert OutputDir + "/" == "./output/";
  }

  // ---------------------------------------------------------------------
  // Visiting order

  datatype Cell = Cell(x: nat, y: nat)

  /** Row `y`, left to right. */
  function Row(width: nat, y: nat): (cells: seq<Cell>)
    // The unfolded body, for the solver; the RowMajor lemmas state the visiting order.
    ensures |cells| == width
    ensures forall x :: 0 <= x < width ==> cells[x] == Cell(x, y)
  {
    seq(width, x requires 0 <= x < width => Cell(x, y))
  }

  /** The cells of a `width` by `height` image in the order the double loop visits them. */
  function RowMajor(width: nat, height: nat): seq<Cell> {
    if height == 0 then [] else RowMajor(width, height - 1) + Row(width, height - 1)
  }

  /** Every visited cell lies inside the image. */
  lemma {:induction false} RowMajorBounds(width: nat, height: nat)
    ensures forall k :: 0 <= k < |RowMajor(width, height)| ==>
      RowMajor(width, height)[k].x < width && RowMajor(width, height)[k].y < height
  {
    if height > 0 {
      RowMajorBounds(width, height - 1);
      var a, b := RowMajor(width, height - 1), Row(width, height - 1);
      var cells: seq<Cell> := a + b;
      forall k | 0 <= k < |cells|
        ensures cells[k].x < width && cells[k].y < height
      {
        if k >= |a| {
          assert cells[k] == b[k - |a|];
        }
      }
    }
  }

  /** One visit per pixel. */
  lemma {:induction false} RowMajorLength(width: nat, height: nat)
    ensures |RowMajor(width, height)| == width * height
  {
    if height > 0 {
      RowMajorLength(width, height - 1);
      assert (height - 1) * width + width == height * width;
    }
  }

  /** Cell `(x, y)` comes strictly before cell `(x', y')` in the visiting order. */
  predicate Before(a: Cell, b: Cell) {
    a.y < b.y || (a.y == b.y && a.x < b.x)
  }

  /**
   The visiting order is strictly increasing row by row, then column by
   column; together with its length and bounds this makes it the
   enumeration of every cell exactly once, y outer and x inner.
   */
  lemma {:induction false} RowMajorIsOrdered(width: nat, height: nat)
    ensures forall i, j :: 0 <= i < j < |RowMajor(width, height)| ==>
      Before(RowMajor(width, height)[i], RowMajor(width, height)[j])
  {
    if height > 0 {
      RowMajorIsOrdered(width, height - 1);
      RowMajorBounds(width, height - 1);
      var a, b := RowMajor(width, height - 1), Row(width, height - 1);
      assert RowMajor(width, height) == a + b;
      forall i, j | 0 <= i < j < |a + b|
        ensures Before((a + b)[i], (a + b)[j])
      {
        if j < |a| {
          assert (a + b)[i] == a[i] && (a + b)[j] == a[j];
        } else if i < |a| {
          assert (a + b)[i] == a[i] && (a + b)[j] == b[j - |a|];
        } else {
          assert (a + b)[i] == b[i - |a|] && (a + b)[j] == b[j - |a|];
        }
      }
    }
  }

  /** Every cell of the image is visited. */
  lemma {:induction false} RowMajorCovers(width: nat, height: nat, x: nat, y: nat)
    requires x < width && y < height
    ensures Cell(x, y) in RowMajor(width, height)
  {
    var a, b := RowMajor(width, height - 1), Row(width, height - 1);
    assert RowMajor(width, height) == a + b;
    if y == height - 1 {
      assert (a + b)[|a| + x] == Cell(x, y);
    } else {
      RowMajorCovers(width, height - 1, x, y);
    }
  }

  /** The visits of the first `y` rows are the start of the whole visit, and cell `(x, y)` follows them. */
  lemma {:induction false} RowMajorPrefix(width: nat, height: nat, y: nat)
    requires y <= height
    ensures |RowMajor(width, y)| <= |RowMajor(width, height)|
    ensures RowMajor(width, height)[..|RowMajor(width, y)|] == RowMajor(width, y)
    ensures y < height ==>
      && |RowMajor(width, y)| + width <= |RowMajor(width, height)|
      && forall x :: 0 <= x < width ==> RowMajor(width, height)[|RowMajor(width, y)| + x] == Cell(x, y)
    decreases height - y
  {
    if y < height {
      RowMajorPrefix(width, height, y + 1);
      var a, b := RowMajor(width, y), Row(width, y);
      assert RowMajor(width, y + 1) == a + b;
      assert (a + b)[..|a|] == a;
      forall x | 0 <= x < width
        ensures RowMajor(width, height)[|a| + x] == Cell(x, y)
      {
        assert (a + b)[|a| + x] == b[x];
      }
    }
  }

  // ---------------------------------------------------------------------
  // Cache population order

  predicate NoDuplicates(s: seq<int>) {
    forall i, j :: 0 <= i < j < |s| ==> s[i] != s[j]
  }

  /** The distinct values among the first `n` elements of `s`, in the order of their first occurrence. */
  function FirstHits(s: seq<int>, n: nat): (d: seq<int>)
    requires n <= |s|
    ensures |d| <= n
  {
    if n == 0 then []
    else
      var d := FirstHits(s, n - 1);
      if s[n - 1] in d then d else d + [s[n - 1]]
  }

  /** Every value met among the first `n` elements is listed, and nothing else. */
  lemma {:induction false} FirstHitsMembers(s: seq<int>, n: nat)
    requires n <= |s|
    ensures forall v :: v in FirstHits(s, n) <==> v in s[..n]
  {
    if n > 0 {
      FirstHitsMembers(s, n - 1);
      assert s[..n] == s[..n - 1] + [s[n - 1]];
    }
  }

  /** No value is listed twice, so no entry is decoded twice. */
  lemma {:induction false} FirstHitsNoDuplicates(s: seq<int>, n: nat)
    requires n <= |s|
    ensures NoDuplicates(FirstHits(s, n))
  {
    if n > 0 {
      FirstHitsNoDuplicates(s, n - 1);
    }
  }

  /**
   The first hits of a prefix are a prefix of the first hits of a longer
   prefix: an entry's position among the decoded bitmaps is fixed at its
   first hit and never changes afterwards.
   */
  lemma {:induction false} FirstHitsOfPrefix(s: seq<int>, k: nat, n: nat)
    requires k <= n <= |s|
    ensures |FirstHits(s, k)| <= |FirstHits(s, n)|
    ensures FirstHits(s, n)[..|FirstHits(s, k)|] == FirstHits(s, k)
  {
    if k < n {
      FirstHitsOfPrefix(s, k, n - 1);
    }
  }

  /** As many values are listed as there are distinct values among the first `n`. */
  lemma {:induction false} FirstHitsCount(s: seq<int>, n: nat)
    requires n <= |s|
    ensures |FirstHits(s, n)| == |set v | v in s[..n]|
  {
    if n > 0 {
      FirstHitsCount(s, n - 1);
      FirstHitsMembers(s, n - 1);
      var a, b, x := s[..n - 1], s[..n], s[n - 1];
      assert b == a + [x];
      if x in a {
        assert (set v | v in b) == (set v | v in a);
      } else {
        assert (set v | v in b) == (set v | v in a) + {x};
      }
    }
  }

  // ---------------------------------------------------------------------
  // Composition

  /**
   A source coordinate magnified to a canvas coordinate, `v * ratio`,
   written as `v` additions of `ratio` so that the solver sees the product
   only through `ScaleIsProduct`.
   */
  function Scale(v: nat, ratio: int): int {
    if v == 0 then 0 else Scale(v - 1, ratio) + ratio
  }

  lemma {:induction false} ScaleIsProduct(v: nat, ratio: int)
    ensures Scale(v, ratio) == v * ratio
  {
    if v > 0 {
      ScaleIsProduct(v - 1, ratio);
    }
  }

  /** Where one tile goes on the canvas, and which decoded bitmap it is. */
  datatype Paste = Paste(x: int, y: int, bitmap: nat)

  /**
   The outcome of a composition: the canvas size, the library with its
   cache slots, the decoded bitmaps (`images_source`), the library index
   each bitmap was decoded for, and the pastes in the order made.
   */
  datatype Mosaic<T> = Mosaic(
    width: int,
    height: int,
    entries: seq<Entry>,
    bitmaps: seq<T>,
    decoded: seq<nat>,
    pastes: seq<Paste>)

  /** The average colours of the library, in entry order. */
  function Colours(lib: seq<Entry>): (colours: seq<Rgb>)
    // The unfolded body, for the solver.
    ensures |colours| == |lib|
    ensures forall i :: 0 <= i < |lib| ==> colours[i] == lib[i].colour
  {
    seq(|lib|, i requires 0 <= i < |lib| => lib[i].colour)
  }

  /**
   The library index each visited pixel is matched to, in visiting order:
   every match indexes the library, unless the library is empty and the
   match is -1, the index `images[indice]` then fails on.
   */
  function Matches(colours: seq<Rgb>, source: Image): (ms: seq<int>)
    requires source.Valid()
    ensures |ms| == |RowMajor(source.width, source.height)|
    ensures forall k :: 0 <= k < |ms| ==> -1 <= ms[k] < |colours| && (ms[k] == -1 <==> |colours| == 0)
  {
    var cells := RowMajor(source.width, source.height);
    RowMajorBounds(source.width, source.height);
    seq(|cells|, k requires 0 <= k < |cells| =>
      NearestIndex(colours, source.rows[cells[k].y][cells[k].x].Colour()))
  }

  /** The visits and matches of row `y`, which start after the `base` visits of the rows above it. */
  lemma RowCells(colours: seq<Rgb>, source: Image, cells: seq<Cell>, ms: seq<int>, y: nat, base: nat)
    requires source.Valid() && y < source.height
    requires cells == RowMajor(source.width, source.height) && ms == Matches(colours, source)
    requires base == |RowMajor(source.width, y)|
    ensures base + source.width <= |cells| == |ms|
    ensures forall x :: 0 <= x < source.width ==> cells[base + x] == Cell(x, y)
    ensures forall x :: 0 <= x < source.width ==> ms[base + x] == NearestIndex(colours, source.rows[y][x].Colour())
  {
    RowMajorPrefix(source.width, source.height, y);
    MatchesRow(colours, source, y);
  }

  /**
   Row `y` of the source sits in the visiting order `cells` and in the
   matches `ms` right after the visits of the rows above it.
   */
  ghost predicate RowAligned(colours: seq<Rgb>, source: Image, cells: seq<Cell>, ms: seq<int>, y: nat)
    requires source.Valid() && y < source.height
  {
    var base := |RowMajor(source.width, y)|;
    && base + source.width <= |cells|
    && base + source.width <= |ms|
    && (forall x :: 0 <= x < source.width ==> cells[base + x] == Cell(x, y))
    && (forall x :: 0 <= x < source.width ==> ms[base + x] == NearestIndex(colours, source.rows[y][x].Colour()))
  }

  lemma AllRowsAligned(colours: seq<Rgb>, source: Image)
    requires source.Valid()
    ensures |Matches(colours, source)| == |RowMajor(source.width, source.height)|
    ensures forall y :: 0 <= y < source.height ==>
      RowAligned(colours, source, RowMajor(source.width, source.height), Matches(colours, source), y)
  {
    var cells, ms := RowMajor(source.width, source.height), Matches(colours, source);
    forall y | 0 <= y < source.height
      ensures RowAligned(colours, source, cells, ms, y)
    {
      RowCells(colours, source, cells, ms, y, |RowMajor(source.width, y)|);
    }
  }

  /** Each row adds `width` visits. */
  lemma RowMajorStep(width: nat, y: nat)
    ensures |RowMajor(width, y + 1)| == |RowMajor(width, y)| + width
  {
  }

  /** The matches of row `y` follow the matches of the rows above it. */
  lemma MatchesRow(colours: seq<Rgb>, source: Image, y: nat)
    requires source.Valid() && y < source.height
    ensures |RowMajor(source.width, y)| + source.width <= |Matches(colours, source)|
    ensures forall x :: 0 <= x < source.width ==>
      Matches(colours, source)[|RowMajor(source.width, y)| + x] == NearestIndex(colours, source.rows[y][x].Colour())
  {
    RowMajorPrefix(source.width, source.height, y);
    var cells, ms := RowMajor(source.width, source.height), Matches(colours, source);
    var base := |RowMajor(source.width, y)|;
    forall x | 0 <= x < source.width
      ensures ms[base + x] == NearestIndex(colours, source.rows[y][x].Colour())
    {
      assert cells[base + x] == Cell(x, y);
    }
  }

  /**
   The cache after some pixels: bitmap `i` was decoded for entry
   `decoded[i]`, from the file named after that entry's colour, and that
   entry's slot holds `i`; every filled slot belongs to a decoded entry.
   */
  ghost predicate Cached<T>(lib: seq<Entry>, decode: string -> T, entries: seq<Entry>, bitmaps: seq<T>, decoded: seq<nat>) {
    && |entries| == |lib|
    && (forall e :: 0 <= e < |lib| ==> entries[e].colour == lib[e].colour)
    && |bitmaps| == |decoded|
    && (forall i :: 0 <= i < |decoded| ==>
          && decoded[i] < |lib|
          && entries[decoded[i]].slot == Some(i)
          && bitmaps[i] == decode(ReloadPath(lib[decoded[i]].colour)))
    && (forall e :: 0 <= e < |lib| && entries[e].slot.Some? ==> e in decoded)
  }

  /**
   The pastes made so far: paste `k` went to the scaled position of the
   `k`-th visited cell, with the bitmap cached for the entry that cell matched.
   */
  ghost predicate Placed(lib: seq<Entry>, cells: seq<Cell>, ms: seq<int>, ratio: int, entries: seq<Entry>, pastes: seq<Paste>) {
    && |ms| == |cells|
    && |pastes| <= |cells|
    && |entries| == |lib|
    && forall k :: 0 <= k < |pastes| ==>
         && pastes[k].x == Scale(cells[k].x, ratio)
         && pastes[k].y == Scale(cells[k].y, ratio)
         && 0 <= ms[k] < |lib|
         && entries[ms[k]].slot == Some(pastes[k].bitmap)
  }

  /**
   What holds of the mosaic `m` after the first `|m.pastes|` pixels of the
   visiting order `cells` have been composed, `ms` being the entry each
   pixel matches.
   */
  ghost predicate Composed<T>(lib: seq<Entry>, cells: seq<Cell>, ms: seq<int>, ratio: int, decode: string -> T, m: Mosaic<T>) {
    && Placed(lib, cells, ms, ratio, m.entries, m.pastes)
    && m.decoded == FirstHits(ms, |m.pastes|)
    && Cached(lib, decode, m.entries, m.bitmaps, m.decoded)
  }

  /** Adding one paste keeps the placement, when no earlier paste's slot moved. */
  lemma PlacedExtend(
    lib: seq<Entry>, cells: seq<Cell>, ms: seq<int>, ratio: int,
    entries: seq<Entry>, entries': seq<Entry>, pastes: seq<Paste>, p: Paste)
    requires Placed(lib, cells, ms, ratio, entries, pastes)
    requires |pastes| < |cells| && |entries'| == |lib|
    requires p.x == Scale(cells[|pastes|].x, ratio) && p.y == Scale(cells[|pastes|].y, ratio)
    requires 0 <= ms[|pastes|] < |lib| && entries'[ms[|pastes|]].slot == Some(p.bitmap)
    requires forall j :: 0 <= j < |pastes| ==> entries'[ms[j]] == entries[ms[j]]
    ensures Placed(lib, cells, ms, ratio, entries', pastes + [p])
  {
    var pastes' := pastes + [p];
    forall k | 0 <= k < |pastes'|
      ensures pastes'[k].x == Scale(cells[k].x, ratio) && pastes'[k].y == Scale(cells[k].y, ratio)
      ensures 0 <= ms[k] < |lib| && entries'[ms[k]].slot == Some(pastes'[k].bitmap)
    {
      if k < |pastes| {
        assert pastes'[k] == pastes[k];
      }
    }
  }

  /**
   The finished mosaic for the library `lib` and the source image: every
   pixel is tiled, and bitmap `i` was decoded for the `i`-th distinct entry
   met in visiting order.
   */
  ghost predicate Mosaicked<T>(lib: seq<Entry>, source: Image, ratio: int, decode: string -> T, m: Mosaic<T>)
    requires source.Valid()
  {
    var ms := Matches(Colours(lib), source);
    Tiled(lib, source, ratio, decode, m) && m.decoded == FirstHits(ms, |ms|)
  }

  /**
   Every pixel is tiled: the library keeps its colours; bitmap `i` was
   decoded, from the thumbnail file named after the colour, for entry
   `decoded[i]`, and that entry's slot holds `i`; only decoded entries have
   a slot; and paste `k` went to the scaled position of the `k`-th visited
   pixel with the bitmap of the entry nearest to that pixel.
   */
  ghost predicate Tiled<T>(lib: seq<Entry>, source: Image, ratio: int, decode: string -> T, m: Mosaic<T>)
    requires source.Valid()
  {
    var cells, ms := RowMajor(source.width, source.height), Matches(Colours(lib), source);
    && Placed(lib, cells, ms, ratio, m.entries, m.pastes)
    && |m.pastes| == |cells|
    && Cached(lib, decode, m.entries, m.bitmaps, m.decoded)
  }

  /** Having composed every visited pixel is being the finished mosaic. */
  lemma FinishedIsMosaicked<T>(lib: seq<Entry>, source: Image, ratio: int, decode: string -> T, m: Mosaic<T>)
    requires source.Valid()
    requires Composed(lib, RowMajor(source.width, source.height), Matches(Colours(lib), source), ratio, decode, m)
    requires |m.pastes| == |RowMajor(source.width, source.height)|
    ensures Mosaicked(lib, source, ratio, decode, m)
  {
  }

  /**
   Each entry is decoded at most once: there are as many decoded bitmaps
   as distinct entries matched, and no entry appears twice among them.
   */
  lemma DecodedOncePerEntry<T>(lib: seq<Entry>, source: Image, ratio: int, decode: string -> T, m: Mosaic<T>)
    requires source.Valid() && Mosaicked(lib, source, ratio, decode, m)
    ensures |m.bitmaps| == |set v | v in Matches(Colours(lib), source)|
    ensures NoDuplicates(m.decoded)
  {
    var ms := Matches(Colours(lib), source);
    FirstHitsCount(ms, |ms|);
    FirstHitsNoDuplicates(ms, |ms|);
    assert ms[..|ms|] == ms;
  }

  /**
   The tile for source pixel `(x, y)`: the paste made at its visit goes to
   `(x * ratio, y * ratio)` and uses the bitmap decoded from the thumbnail
   of the library entry nearest to the pixel's colour.
   */
  lemma PixelTile<T>(lib: seq<Entry>, source: Image, ratio: int, decode: string -> T, m: Mosaic<T>, x: nat, y: nat)
    requires source.Valid() && Tiled(lib, source, ratio, decode, m)
    requires x < source.width && y < source.height
    ensures
      var k, i := |RowMajor(source.width, y)| + x, NearestIndex(Colours(lib), source.rows[y][x].Colour());
      && k < |m.pastes|
      && 0 <= i < |lib|
      && m.pastes[k].x == x * ratio && m.pastes[k].y == y * ratio
      && m.pastes[k].bitmap < |m.bitmaps|
      && m.bitmaps[m.pastes[k].bitmap] == decode(ReloadPath(lib[i].colour))
  {
    AllRowsAligned(Colours(lib), source);
    TileOfVisit(lib, Colours(lib), source, RowMajor(source.width, source.height), Matches(Colours(lib), source),
      ratio, decode, m, x, y, |RowMajor(source.width, y)| + x);
  }

  /** The paste made for pixel `(x, y)`, visit `k` of a row aligned with the visiting order. */
  lemma TileOfVisit<T>(
    lib: seq<Entry>, colours: seq<Rgb>, source: Image, cells: seq<Cell>, ms: seq<int>, ratio: int, decode: string -> T,
    m: Mosaic<T>, x: nat, y: nat, k: nat)
    requires source.Valid() && x < source.width && y < source.height
    requires RowAligned(colours, source, cells, ms, y) && k == |RowMajor(source.width, y)| + x
    requires Placed(lib, cells, ms, ratio, m.entries, m.pastes) && |m.pastes| == |cells|
    requires Cached(lib, decode, m.entries, m.bitmaps, m.decoded)
    ensures
      var i := NearestIndex(colours, source.rows[y][x].Colour());
      && k < |m.pastes|
      && 0 <= i < |lib|
      && m.pastes[k].x == x * ratio && m.pastes[k].y == y * ratio
      && m.pastes[k].bitmap < |m.bitmaps|
      && m.bitmaps[m.pastes[k].bitmap] == decode(ReloadPath(lib[i].colour))
  {
    AlignedVisit(colours, source, cells, ms, x, y, k);
    PasteOfVisit(lib, cells, ms, ratio, decode, m.entries, m.bitmaps, m.decoded, m.pastes, k, x, y,
      NearestIndex(colours, source.rows[y][x].Colour()));
  }

  /** In an aligned row, pixel `(x, y)` is visit `k`, `x` steps after the visits of the rows above it. */
  lemma AlignedVisit(colours: seq<Rgb>, source: Image, cells: seq<Cell>, ms: seq<int>, x: nat, y: nat, k: nat)
    requires source.Valid() && x < source.width && y < source.height
    requires RowAligned(colours, source, cells, ms, y) && k == |RowMajor(source.width, y)| + x
    ensures k < |cells| && k < |ms|
    ensures cells[k] == Cell(x, y)
    ensures ms[k] == NearestIndex(colours, source.rows[y][x].Colour())
  {
  }

  /** The paste made at the visit of pixel `(x, y)` uses the bitmap decoded for the entry `i` it matched. */
  lemma PasteOfVisit<T>(
    lib: seq<Entry>, cells: seq<Cell>, ms: seq<int>, ratio: int, decode: string -> T,
    entries: seq<Entry>, bitmaps: seq<T>, decoded: seq<nat>, pastes: seq<Paste>, k: nat, x: nat, y: nat, i: int)
    requires Placed(lib, cells, ms, ratio, entries, pastes) && Cached(lib, decode, entries, bitmaps, decoded)
    requires k < |pastes| && cells[k] == Cell(x, y) && ms[k] == i
    ensures pastes[k].x == x * ratio && pastes[k].y == y * ratio
    ensures 0 <= i < |lib|
    ensures pastes[k].bitmap < |bitmaps| && bitmaps[pastes[k].bitmap] == decode(ReloadPath(lib[i].colour))
  {
    ScaleIsProduct(x, ratio);
    ScaleIsProduct(y, ratio);
    SlotHoldsBitmap(lib, decode, entries, bitmaps, decoded, i);
  }

  /** A filled slot names the bitmap decoded from that entry's thumbnail. */
  lemma SlotHoldsBitmap<T>(lib: seq<Entry>, decode: string -> T, entries: seq<Entry>, bitmaps: seq<T>, decoded: seq<nat>, e: int)
    requires Cached(lib, decode, entries, bitmaps, decoded)
    requires 0 <= e < |lib| && entries[e].slot.Some?
    ensures entries[e].slot.value < |bitmaps|
    ensures bitmaps[entries[e].slot.value] == decode(ReloadPath(lib[e].colour))
  {
    var j :| 0 <= j < |decoded| && decoded[j] == e;
    assert entries[decoded[j]].slot == Some(j);
  }

  /**
   `creer_image_et_ajouter` on an already opened source image. A negative
   canvas size makes `Image.new` raise; an empty library makes the first
   pixel's lookup `images[-1]` raise.
   */
  method Compose<T>(lib: seq<Entry>, source: Image, ratio: int, decode: string -> T)
    returns (r: Result<Mosaic<T>>)
    requires source.Valid()
    requires forall e :: 0 <= e < |lib| ==> lib[e].slot == None
    ensures r.Err? <==>
      || source.width * ratio < 0
      || source.height * ratio < 0
      || (|lib| == 0 && source.width > 0 && source.height > 0)
    ensures r.Err? ==>
      r.error == if source.width * ratio < 0 || source.height * ratio < 0 then ValueError else IndexError
    ensures r.Ok? ==>
      && r.value.width == source.width * ratio
      && r.value.height == source.height * ratio
      && Mosaicked(lib, source, ratio, decode, r.value)
  {
    var newWidth := source.width * ratio;
    var newHeight := source.height * ratio;
    if newWidth < 0 || newHeight < 0 {
      return Err(ValueError);
    }
    var colours := Colours(lib);
    ghost var cells := RowMajor(source.width, source.height);
    ghost var ms := Matches(colours, source);
    var m := Mosaic(newWidth, newHeight, lib, [], [], []);
    AllRowsAligned(colours, source);
    r := ComposeRows(lib, colours, source, ratio, decode, cells, ms, m);
    if r.Ok? {
      FinishedIsMosaicked(lib, source, ratio, decode, r.value);
    }
  }

  /** The outer loop: the rows of the source, top to bottom. */
  method ComposeRows<T>(
    lib: seq<Entry>, colours: seq<Rgb>, source: Image, ratio: int, decode: string -> T,
    ghost cells: seq<Cell>, ghost ms: seq<int>, m0: Mosaic<T>)
    returns (r: Result<Mosaic<T>>)
    requires source.Valid()
    requires colours == Colours(lib)
    requires |cells| == |ms| == |RowMajor(source.width, source.height)|
    requires forall y :: 0 <= y < source.height ==> RowAligned(colours, source, cells, ms, y)
    requires m0.pastes == [] && Composed(lib, cells, ms, ratio, decode, m0)
    ensures r.Err? <==> |lib| == 0 && source.width > 0 && source.height > 0
    ensures r.Err? ==> r.error == IndexError
    ensures r.Ok? ==>
      && r.value.width == m0.width && r.value.height == m0.height
      && |r.value.pastes| == |cells|
      && Composed(lib, cells, ms, ratio, decode, r.value)
  {
    var m := m0;
    var y := 0;
    while y < source.height
      invariant 0 <= y <= source.height
      invariant m.width == m0.width && m.height == m0.height
      invariant |m.pastes| == |RowMajor(source.width, y)|
      invariant |lib| == 0 ==> |m.pastes| == 0
      invariant Composed(lib, cells, ms, ratio, decode, m)
    {
      assert RowAligned(colours, source, cells, ms, y);
      var row := ComposeRow(lib, colours, source, ratio, decode, cells, ms, y, m);
      if row.Err? {
        return row;
      }
      m := row.value;
      RowMajorStep(source.width, y);
      y := y + 1;
    }
    r := Ok(m);
  }

  /** The inner loop: row `y` of the source, left to right. */
  method ComposeRow<T>(
    lib: seq<Entry>, colours: seq<Rgb>, source: Image, ratio: int, decode: string -> T,
    ghost cells: seq<Cell>, ghost ms: seq<int>, y: nat, m: Mosaic<T>)
    returns (r: Result<Mosaic<T>>)
    requires source.Valid() && y < source.height
    requires colours == Colours(lib)
    requires Composed(lib, cells, ms, ratio, decode, m)
    requires RowAligned(colours, source, cells, ms, y) && |m.pastes| == |RowMajor(source.width, y)|
    ensures r.Err? <==> |lib| == 0 && source.width > 0
    ensures r.Err? ==> r.error == IndexError
    ensures r.Ok? ==>
      && r.value.width == m.width && r.value.height == m.height
      && |r.value.pastes| == |m.pastes| + source.width
      && Composed(lib, cells, ms, ratio, decode, r.value)
  {
    var base := |m.pastes|;
    var current := m;
    var x := 0;
    while x < source.width
      invariant 0 <= x <= source.width
      invariant current.width == m.width && current.height == m.height
      invariant |current.pastes| == base + x
      invariant |lib| == 0 ==> x == 0
      invariant Composed(lib, cells, ms, ratio, decode, current)
    {
      var index := NearestIndex(colours, source.rows[y][x].Colour());
      if index == -1 {
        return Err(IndexError);
      }
      AlignedVisit(colours, source, cells, ms, x, y, |current.pastes|);
      current := Visit(lib, cells, ms, ratio, decode, current, x, y, index);
      x := x + 1;
    }
    r := Ok(current);
  }

  /**
   One pixel of the double loop: decode the matched entry's thumbnail if
   its slot is unset, then paste the cached bitmap at the scaled position.
   */
  method Visit<T>(
    lib: seq<Entry>, ghost cells: seq<Cell>, ghost ms: seq<int>, ratio: int, decode: string -> T,
    m: Mosaic<T>, x: nat, y: nat, index: int)
    returns (m': Mosaic<T>)
    requires Composed(lib, cells, ms, ratio, decode, m)
    requires |m.pastes| < |cells| && cells[|m.pastes|] == Cell(x, y)
    requires ms[|m.pastes|] == index && 0 <= index < |lib|
    ensures m'.width == m.width && m'.height == m.height
    ensures |m'.pastes| == |m.pastes| + 1
    ensures Composed(lib, cells, ms, ratio, decode, m')
    ensures |m'.bitmaps| == |m.bitmaps| + (if m.entries[index].slot.None? then 1 else 0)
    ensures m'.bitmaps[..|m.bitmaps|] == m.bitmaps
    ensures forall e :: 0 <= e < |m.entries| && m.entries[e].slot.Some? ==> m'.entries[e] == m.entries[e]
    ensures m'.entries[index].slot.Some?
    ensures m'.pastes[|m.pastes|] == Paste(Scale(x, ratio), Scale(y, ratio), m'.entries[index].slot.value)
  {
    if m.entries[index].slot.None? {
      var slot := |m.bitmaps|;
      var bitmaps := m.bitmaps + [decode(ReloadPath(m.entries[index].colour))];
      var entries := m.entries[index := Entry(m.entries[index].colour, Some(slot))];
      var pastes := m.pastes + [Paste(Scale(x, ratio), Scale(y, ratio), slot)];
      m' := Mosaic(m.width, m.height, entries, bitmaps, m.decoded + [index], pastes);
      FirstHitComposed(lib, cells, ms, ratio, decode, m, x, y, index);
    } else {
      m' := m.(pastes := m.pastes + [Paste(Scale(x, ratio), Scale(y, ratio), m.entries[index].slot.value)]);
      RepeatHitComposed(lib, cells, ms, ratio, decode, m, x, y, index);
    }
  }

  /** Decoding the bitmap of an entry with an unset slot into the next slot keeps the cache consistent. */
  lemma CachedExtend<T>(
    lib: seq<Entry>, decode: string -> T, entries: seq<Entry>, bitmaps: seq<T>, decoded: seq<nat>, index: nat)
    requires Cached(lib, decode, entries, bitmaps, decoded)
    requires index < |lib| && entries[index].slot.None?
    ensures index !in decoded
    ensures Cached(lib, decode,
      entries[index := Entry(entries[index].colour, Some(|bitmaps|))],
      bitmaps + [decode(ReloadPath(lib[index].colour))],
      decoded + [index])
  {
    var entries' := entries[index := Entry(entries[index].colour, Some(|bitmaps|))];
    var bitmaps' := bitmaps + [decode(ReloadPath(lib[index].colour))];
    var decoded' := decoded + [index];
    forall i | 0 <= i < |decoded|
      ensures decoded[i] != index
    {
    }
    forall i | 0 <= i < |decoded'|
      ensures decoded'[i] < |lib| && entries'[decoded'[i]].slot == Some(i)
      ensures bitmaps'[i] == decode(ReloadPath(lib[decoded'[i]].colour))
    {
      if i < |decoded| {
        assert decoded'[i] == decoded[i] && bitmaps'[i] == bitmaps[i];
      }
    }
    forall e | 0 <= e < |lib| && entries'[e].slot.Some?
      ensures e in decoded'
    {
      if e != index {
        assert entries[e].slot.Some?;
      }
    }
  }

  /** A pixel matching an entry not met before decodes its bitmap and fills its slot. */
  lemma FirstHitComposed<T>(
    lib: seq<Entry>, cells: seq<Cell>, ms: seq<int>, ratio: int, decode: string -> T,
    m: Mosaic<T>, x: nat, y: nat, index: int)
    requires Composed(lib, cells, ms, ratio, decode, m)
    requires |m.pastes| < |cells| && cells[|m.pastes|] == Cell(x, y)
    requires ms[|m.pastes|] == index && 0 <= index < |lib|
    requires m.entries[index].slot.None?
    ensures
      var slot := |m.bitmaps|;
      Composed(lib, cells, ms, ratio, decode, Mosaic(m.width, m.height,
        m.entries[index := Entry(m.entries[index].colour, Some(slot))],
        m.bitmaps + [decode(ReloadPath(m.entries[index].colour))],
        m.decoded + [index],
        m.pastes + [Paste(Scale(x, ratio), Scale(y, ratio), slot)]))
  {
    var k, slot := |m.pastes|, |m.bitmaps|;
    CachedExtend(lib, decode, m.entries, m.bitmaps, m.decoded, index);
    FirstHitsNext(ms, k, m.decoded);
    PlacedFill(lib, cells, ms, ratio, m.entries, m.pastes, index, Paste(Scale(x, ratio), Scale(y, ratio), slot));
  }

  /** Filling the unset slot of the entry visit `|pastes|` matched keeps the placement of every paste. */
  lemma PlacedFill(
    lib: seq<Entry>, cells: seq<Cell>, ms: seq<int>, ratio: int,
    entries: seq<Entry>, pastes: seq<Paste>, index: int, p: Paste)
    requires Placed(lib, cells, ms, ratio, entries, pastes)
    requires |pastes| < |cells| && ms[|pastes|] == index && 0 <= index < |lib| && entries[index].slot.None?
    requires p.x == Scale(cells[|pastes|].x, ratio) && p.y == Scale(cells[|pastes|].y, ratio)
    ensures Placed(lib, cells, ms, ratio, entries[index := Entry(entries[index].colour, Some(p.bitmap))], pastes + [p])
  {
    var entries' := entries[index := Entry(entries[index].colour, Some(p.bitmap))];
    forall j | 0 <= j < |pastes|
      ensures entries'[ms[j]] == entries[ms[j]]
    {
      assert entries[ms[j]].slot.Some?;
    }
    PlacedExtend(lib, cells, ms, ratio, entries, entries', pastes, p);
  }

  /** One more visit adds its entry to the first hits exactly when the entry is new. */
  lemma FirstHitsNext(s: seq<int>, n: nat, d: seq<int>)
    requires n < |s| && d == FirstHits(s, n)
    ensures s[n] in d ==> FirstHits(s, n + 1) == d
    ensures s[n] !in d ==> FirstHits(s, n + 1) == d + [s[n]]
  {
  }

  /** A pixel matching an entry met before reuses its slot and changes no slot. */
  lemma RepeatHitComposed<T>(
    lib: seq<Entry>, cells: seq<Cell>, ms: seq<int>, ratio: int, decode: string -> T,
    m: Mosaic<T>, x: nat, y: nat, index: int)
    requires Composed(lib, cells, ms, ratio, decode, m)
    requires |m.pastes| < |cells| && cells[|m.pastes|] == Cell(x, y)
    requires ms[|m.pastes|] == index && 0 <= index < |lib|
    requires m.entries[index].slot.Some?
    ensures Composed(lib, cells, ms, ratio, decode,
      m.(pastes := m.pastes + [Paste(Scale(x, ratio), Scale(y, ratio), m.entries[index].slot.value)]))
  {
    var k := |m.pastes|;
    assert index in m.decoded;
    FirstHitsNext(ms, k, m.decoded);
    PlacedExtend(lib, cells, ms, ratio, m.entries, m.entries, m.pastes,
      Paste(Scale(x, ratio), Scale(y, ratio), m.entries[index].slot.value));
  }
}

=== FILE: library.dfy ===
/**
 Building the tile library from a directory listing (`traiter_images_png`).
 The listing and the decoding of each file are inputs: `listing` is what
 `os.listdir` returned, in its order, and `open` maps a path to the image
 stored there.
 */
module Library {
  import opened Base
  import opened Text
  import opened Averager
  import opened Thumbnail

  /** A library entry: the tile's average colour, and the cache slot, unset until first use. */
  datatype Entry = Entry(colour: Rgb, slot: Option<nat>)

  /** The library built, and the thumbnails written while building it. */
  datatype Built = Built(entries: seq<Entry>, thumbs: seq<Thumb>)

  /** The file-name test of the scan: lower-cased, the name ends in `.png`. */
  predicate IsTileName(name: string) {
    EndsWith(Lower(name), ".png")
  }

  /** The names of the listing the scan keeps, in listing order. */
  function TileNames(listing: seq<string>): (names: seq<string>)
    ensures forall n :: n in names ==> IsTileName(n) && n in listing
  {
    if |listing| == 0 then []
    else
      var rest := TileNames(listing[1..]);
      if IsTileName(listing[0]) then [listing[0]] + rest else rest
  }

  /**
   The scan keeps every listed `.png` name as often as it is listed and
   drops every other name.
   */
  lemma {:induction false} TileNamesCount(listing: seq<string>, n: string)
    ensures multiset(TileNames(listing))[n] == if IsTileName(n) then multiset(listing)[n] else 0
  {
    if |listing| > 0 {
      TileNamesCount(listing[1..], n);
      assert listing == [listing[0]] + listing[1..];
    }
  }

  /** Filtering a concatenated listing filters each part, keeping their order. */
  lemma {:induction false} TileNamesAppend(a: seq<string>, b: seq<string>)
    ensures TileNames(a + b) == TileNames(a) + TileNames(b)
  {
    if |a| > 0 {
      assert (a + b)[1..] == a[1..] + b;
      TileNamesAppend(a[1..], b);
    } else {
      assert a + b == b;
    }
  }

  /** The path the scan opens for a listed name. */
  function TilePath(dir: string, name: string): string {
    PathJoin(dir, name)
  }

  /** The entry and the thumbnail the scan produces for one kept file. */
  ghost predicate BuiltFrom(e: Entry, t: Thumb, img: Image, size: int) {
    && e == Entry(OpaqueMean(img.Data()), None)
    && CreateThumbnail(img, Keyed(e.colour), size, OutputDir) == Ok(t)
  }

  /**
   The scan: for each listed name that ends in `.png` whatever its case,
   average the image, append `[average, None]`, and write its thumbnail
   named after the average. A thumbnail of an image whose sides are both 0
   raises and abandons the whole scan.
   */
  method BuildLibrary(listing: seq<string>, dir: string, size: int, open: string -> Image)
    returns (r: Result<Built>)
    ensures r.Ok? <==>
      forall n :: n in TileNames(listing) ==> open(TilePath(dir, n)).width > 0 || open(TilePath(dir, n)).height > 0
    ensures r.Err? ==> r.error == ZeroDivisionError
    ensures r.Ok? ==>
      var names := TileNames(listing);
      && |r.value.entries| == |names| == |r.value.thumbs|
      && forall i :: 0 <= i < |names| ==>
           BuiltFrom(r.value.entries[i], r.value.thumbs[i], open(TilePath(dir, names[i])), size)
  {
    var entries: seq<Entry> := [];
    var thumbs: seq<Thumb> := [];
    ghost var kept: seq<string> := [];
    var k := 0;
    while k < |listing|
      invariant 0 <= k <= |listing|
      invariant kept == TileNames(listing[..k])
      invariant |entries| == |kept| == |thumbs|
      invariant forall i :: 0 <= i < |entries| ==>
        BuiltFrom(entries[i], thumbs[i], open(TilePath(dir, kept[i])), size)
      invariant forall n :: n in kept ==> open(TilePath(dir, n)).width > 0 || open(TilePath(dir, n)).height > 0
    {
      var name := listing[k];
      TileNamesStep(listing, k);
      if IsTileName(name) {
        var tile := BuildEntry(open(TilePath(dir, name)), size);
        if tile.Err? {
          KeptNameSurvives(listing, k);
          return Err(tile.error);
        }
        entries := entries + [tile.value.0];
        thumbs := thumbs + [tile.value.1];
      }
      kept := TileNames(listing[..k + 1]);
      k := k + 1;
    }
    assert listing[..k] == listing;
    r := Ok(Built(entries, thumbs));
  }

  /**
   One kept file: average the image, make the entry `[average, None]`, and
   write its thumbnail named after the average; an image whose sides are both
   0 raises.
   */
  method BuildEntry(img: Image, size: int) returns (r: Result<(Entry, Thumb)>)
    ensures r.Err? <==> img.width == 0 && img.height == 0
    ensures r.Err? ==> r.error == ZeroDivisionError
    ensures r.Ok? ==> BuiltFrom(r.value.0, r.value.1, img, size)
  {
    var average := AverageColour(img.Data());
    var thumb := CreateThumbnail(img, Keyed(average), size, OutputDir);
    if thumb.Err? {
      return Err(thumb.error);
    }
    r := Ok((Entry(average, None), thumb.value));
  }

  /** The names kept from one more listed name: that name, if it passes the test, after the ones kept before. */
  lemma TileNamesStep(listing: seq<string>, k: nat)
    requires k < |listing|
    ensures TileNames(listing[..k + 1]) == TileNames(listing[..k]) + if IsTileName(listing[k]) then [listing[k]] else []
  {
    TileNamesAppend(listing[..k], [listing[k]]);
    assert listing[..k + 1] == listing[..k] + [listing[k]];
  }

  /** A name the scan keeps at position `k` is among the names kept from the whole listing. */
  lemma KeptNameSurvives(listing: seq<string>, k: nat)
    requires k < |listing| && IsTileName(listing[k])
    ensures listing[k] in TileNames(listing)
  {
    var x := listing[k];
    TileNamesCount(listing, x);
    assert x in multiset(listing);
    assert x in multiset(TileNames(listing));
  }
}

=== FILE: matcher.dfy ===
/**
 The nearest-colour search (`chercher_couleur`): a linear scan over the
 library's average colours that keeps the first strictly smaller
 Euclidean distance.

 Distances are compared squared. For integer squared distances `d, e`
 `sqrt(d) < sqrt(e)` holds exactly when `d < e`, and `sqrt(d) < 1000`
 exactly when `d < 1000 * 1000`, so the scan below takes the same branch
 at every step as the one over square roots.
 */
module Matcher {
  import opened Base
  import opened Arith

  /** The initial running minimum of the scan, as a plain distance. */
  const Seed: nat := 1000

  function SquaredDistance(c: Rgb, q: Rgb): nat {
    (c.r - q.r) * (c.r - q.r) + (c.g - q.g) * (c.g - q.g) + (c.b - q.b) * (c.b - q.b)
  }

  /** No two 8-bit colours are as far apart as the seed. */
  lemma SeedExceedsEveryDistance(c: Rgb, q: Rgb)
    ensures SquaredDistance(c, q) <= 3 * 255 * 255 < Seed * Seed
  {
    SquareBound(c.r - q.r);
    SquareBound(c.g - q.g);
    SquareBound(c.b - q.b);
  }

  lemma SquareBound(d: int)
    requires -255 <= d <= 255
    ensures d * d <= 255 * 255
  {
    var a := if d >= 0 then d else -d;
    assert d * d == a * a;
    MulNonNegative(255 - a, 255 + a);
  }

  lemma Square(x: int)
    ensures x * x >= 0
    ensures x * x == 0 <==> x == 0
  {
    if x > 0 {
      MulNonNegative(x, x - 1);
    } else if x < 0 {
      MulNonNegative(-x, -x - 1);
    }
  }

  /** Two colours are at distance zero exactly when they are equal. */
  lemma DistanceZeroIffEqual(c: Rgb, q: Rgb)
    ensures SquaredDistance(c, q) == 0 <==> c == q
  {
    Square(c.r - q.r);
    Square(c.g - q.g);
    Square(c.b - q.b);
  }

  /**
   `i` is the answer the scan owes: a closest entry, and no earlier entry
   is as close.
   */
  ghost predicate IsFirstNearest(colours: seq<Rgb>, q: Rgb, i: int) {
    && 0 <= i < |colours|
    && (forall j :: 0 <= j < |colours| ==> SquaredDistance(colours[i], q) <= SquaredDistance(colours[j], q))
    && (forall j :: 0 <= j < i ==> SquaredDistance(colours[i], q) < SquaredDistance(colours[j], q))
  }

  /** The scan from position `i` on, with running minimum `best` found at `index`. */
  function Scan(colours: seq<Rgb>, q: Rgb, i: nat, best: nat, index: int): (r: int)
    requires i <= |colours|
    requires i == 0 <==> index == -1
    requires i == 0 ==> best == Seed * Seed
    requires -1 <= index < i
    ensures r == -1 <==> |colours| == 0
    ensures -1 <= r < |colours|
    decreases |colours| - i
  {
    if i == |colours| then
      index
    else
      var d := SquaredDistance(colours[i], q);
      SeedExceedsEveryDistance(colours[i], q);
      if d < best then Scan(colours, q, i + 1, d, i) else Scan(colours, q, i + 1, best, index)
  }

  /**
   Resumed at any position with the first nearest entry of the prefix
   scanned so far, the scan ends at the first nearest entry of the whole
   library.
   */
  lemma {:induction false} ScanFindsFirstNearest(colours: seq<Rgb>, q: Rgb, i: nat, best: nat, index: int)
    requires i <= |colours|
    requires i == 0 <==> index == -1
    requires i == 0 ==> best == Seed * Seed
    requires i > 0 ==> IsFirstNearest(colours[..i], q, index) && best == SquaredDistance(colours[index], q)
    ensures |colours| > 0 ==> IsFirstNearest(colours, q, Scan(colours, q, i, best, index))
    decreases |colours| - i
  {
    if i == |colours| {
      assert colours[..i] == colours;
    } else {
      var d := SquaredDistance(colours[i], q);
      SeedExceedsEveryDistance(colours[i], q);
      var pre, next := colours[..i], colours[..i + 1];
      assert forall j :: 0 <= j < i ==> next[j] == pre[j];
      if d < best {
        ScanFindsFirstNearest(colours, q, i + 1, d, i);
      } else {
        ScanFindsFirstNearest(colours, q, i + 1, best, index);
      }
    }
  }

  /** `chercher_couleur`: the first index of minimal distance, or -1 for an empty library. */
  function NearestIndex(colours: seq<Rgb>, q: Rgb): (r: int)
    ensures r == -1 <==> |colours| == 0
    ensures -1 <= r < |colours|
  {
    Scan(colours, q, 0, Seed * Seed, -1)
  }

  /** The index found is a closest entry, and every earlier entry is strictly farther. */
  lemma NearestIndexIsFirstNearest(colours: seq<Rgb>, q: Rgb)
    ensures |colours| > 0 ==> IsFirstNearest(colours, q, NearestIndex(colours, q))
  {
    ScanFindsFirstNearest(colours, q, 0, Seed * Seed, -1);
  }

  /** At most one index meets the description, so the answer is determined. */
  lemma FirstNearestIsUnique(colours: seq<Rgb>, q: Rgb, i: int, j: int)
    requires IsFirstNearest(colours, q, i) && IsFirstNearest(colours, q, j)
    ensures i == j
  {
    var di, dj := SquaredDistance(colours[i], q), SquaredDistance(colours[j], q);
    assert di <= dj && dj <= di;
  }

  /** A query equal to an entry's colour finds the first entry of that colour. */
  lemma ExactColourIsFound(colours: seq<Rgb>, q: Rgb, i: nat)
    requires i < |colours| && colours[i] == q
    requires forall j :: 0 <= j < i ==> colours[j] != q
    ensures NearestIndex(colours, q) == i
  {
    var r := NearestIndex(colours, q);
    NearestIndexIsFirstNearest(colours, q);
    DistanceZeroIffEqual(colours[i], q);
    DistanceZeroIffEqual(colours[r], q);
    FirstNearestIsUnique(colours, q, r, i);
  }
}

=== FILE: text.dfy ===
/**
 The string operations main.py relies on: `str.lower`, `str.endswith`,
 formatting a non-negative int with `f"{n}"`, and `os.path.join` on POSIX.
 */
module Text {
  import opened Base

  function LowerChar(c: char): char {
    if 'A' <= c <= 'Z' then (c as int - 'A' as int + 'a' as int) as char else c
  }

  /**
   `s.lower()`, restricted to the ASCII letters (see README): no upper-case
   letter survives, an upper-case letter becomes the lower-case letter at
   the same place in the alphabet, and every other character is kept.
   */
  function Lower(s: string): (t: string)
    ensures |t| == |s|
    ensures forall i :: 0 <= i < |t| ==> !('A' <= t[i] <= 'Z')
    ensures forall i :: 0 <= i < |s| && !('A' <= s[i] <= 'Z') ==> t[i] == s[i]
    ensures forall i :: 0 <= i < |s| && 'A' <= s[i] <= 'Z' ==>
      'a' <= t[i] <= 'z' && t[i] as int - 'a' as int == s[i] as int - 'A' as int
    // The per-character form the suffix proofs use.
    ensures forall i :: 0 <= i < |s| ==> t[i] == LowerChar(s[i])
  {
    seq(|s|, i requires 0 <= i < |s| => LowerChar(s[i]))
  }

  lemma LowerIdempotent(s: string)
    ensures Lower(Lower(s)) == Lower(s)
  {
  }

  /** `s.endswith(suffix)` */
  predicate EndsWith(s: string, suffix: string) {
    |suffix| <= |s| && s[|s| - |suffix|..] == suffix
  }

  /**
   An independent statement of a case-insensitive suffix test: the last
   `|suffix|` characters of `s`, each folded to lower case, spell `suffix`.
   */
  ghost predicate EndsWithIgnoringCase(s: string, suffix: string) {
    && |suffix| <= |s|
    && forall i :: 0 <= i < |suffix| ==> LowerChar(s[|s| - |suffix| + i]) == suffix[i]
  }

  /** `Lower(s).endswith(suffix)` is exactly a case-insensitive suffix test. */
  lemma LowerEndsWith(s: string, suffix: string)
    ensures EndsWith(Lower(s), suffix) <==> EndsWithIgnoringCase(s, suffix)
  {
    if EndsWithIgnoringCase(s, suffix) {
      var t := Lower(s);
      forall i | 0 <= i < |suffix|
        ensures t[|t| - |suffix|..][i] == suffix[i]
      {
        assert t[|t| - |suffix| + i] == LowerChar(s[|s| - |suffix| + i]);
      }
    }
  }

  // ---------------------------------------------------------------------
  // Decimal formatting, `f"{n}"` for n >= 0

  predicate IsDigit(c: char) {
    '0' <= c <= '9'
  }

  predicate AllDigits(s: string) {
    forall i :: 0 <= i < |s| ==> IsDigit(s[i])
  }

  function DigitChar(d: nat): (c: char)
    requires d < 10
    ensures IsDigit(c)
  {
    (d + '0' as int) as char
  }

  function DigitValue(c: char): (d: nat)
    requires IsDigit(c)
    ensures d < 10
  {
    c as int - '0' as int
  }

  /** The shortest decimal spelling of `n`: no sign, no leading zero. */
  function Decimal(n: nat): (s: string)
    ensures |s| >= 1 && AllDigits(s)
    ensures |s| > 1 ==> s[0] != '0'
  {
    if n < 10 then [DigitChar(n)] else Decimal(n / 10) + [DigitChar(n % 10)]
  }

  /** The value a string of decimal digits denotes. */
  function DecimalValue(s: string): nat
    requires AllDigits(s)
  {
    if |s| == 0 then 0 else DecimalValue(s[..|s| - 1]) * 10 + DigitValue(s[|s| - 1])
  }

  /** Reading back a formatted number gives the number. */
  lemma {:induction false} DecimalRoundTrip(n: nat)
    ensures DecimalValue(Decimal(n)) == n
  {
    if n >= 10 {
      var s := Decimal(n);
      assert s[..|s| - 1] == Decimal(n / 10);
      DecimalRoundTrip(n / 10);
    }
  }

  // ---------------------------------------------------------------------
  // Splitting at the first separator

  /**
   Splits `s` around the first occurrence of `sep`, or gives `None` when
   `sep` does not occur.
   */
  function SplitFirst(s: string, sep: char): (r: Option<(string, string)>)
    ensures r.None? <==> sep !in s
    ensures r.Some? ==> s == r.value.0 + [sep] + r.value.1 && sep !in r.value.0
  {
    if |s| == 0 then None
    else if s[0] == sep then Some(([], s[1..]))
    else match SplitFirst(s[1..], sep)
      case None => None
      case Some((a, b)) => Some(([s[0]] + a, b))
  }

  /** A separator-free prefix followed by the separator is split off exactly. */
  lemma {:induction false} SplitFirstOfJoin(x: string, sep: char, y: string)
    requires sep !in x
    ensures SplitFirst(x + [sep] + y, sep) == Some((x, y))
  {
    if |x| > 0 {
      assert (x + [sep] + y)[1..] == x[1..] + [sep] + y;
      SplitFirstOfJoin(x[1..], sep, y);
      assert [x[0]] + x[1..] == x;
    }
  }

  // ---------------------------------------------------------------------
  // Paths

  /** `os.path.join(dir, name)` for two components, POSIX flavour. */
  function PathJoin(dir: string, name: string): string {
    if |name| > 0 && name[0] == '/' then name
    else if |dir| == 0 || dir[|dir| - 1] == '/' then dir + name
    else dir + "/" + name
  }

  /**
   The joined path always ends with `name`; a relative `name` is placed
   under `dir`, and when `dir` lacks a trailing separator exactly one is
   inserted between them.
   */
  lemma PathJoinShape(dir: string, name: string)
    ensures EndsWith(PathJoin(dir, name), name)
    ensures (|name| == 0 || name[0] != '/') ==>
      |dir| <= |PathJoin(dir, name)| && PathJoin(dir, name)[..|dir|] == dir
    ensures (|name| == 0 || name[0] != '/') && |dir| > 0 && dir[|dir| - 1] != '/' ==>
      && |PathJoin(dir, name)| == |dir| + 1 + |name| && PathJoin(dir, name)[|dir|] == '/'
      && PathJoin(dir, name) == dir + "/" + name
  {
  }
}

=== FILE: thumbnail.dfy ===
/**
 The parts of `creer_et_redimensionner_image` that are not image
 numerics: the size of the resized copy and the name it is saved under.
 */
module Thumbnail {
  import opened Base
  import opened Text
  import opened Arith

  /** The default output directory of `creer_et_redimensionner_image`. */
  const OutputDir: string := "./output"

  datatype Size = Size(width: int, height: int)

  /** A resized copy written to disk: where, and at what size. */
  datatype Thumb = Thumb(path: string, size: Size)

  /** What the saved file is named after: an explicit name or a colour triple. */
  datatype NameKey = Named(name: string) | Keyed(colour: Rgb)

  /** `q` is `a / b` rounded down: `q * b <= a < (q + 1) * b`. */
  predicate FloorBand(q: int, a: int, b: int) {
    q * b <= a < (q + 1) * b
  }

  /** `q` is `a / b` rounded up: `(q - 1) * b < a <= q * b`. */
  predicate CeilingBand(q: int, a: int, b: int) {
    (q - 1) * b < a <= q * b
  }

  /** Python's `int(q)` of an exact quotient `a / b`: truncation toward zero. */
  function TruncDiv(a: int, b: int): (q: int)
    requires b > 0
    ensures a >= 0 ==> FloorBand(q, a, b)
    ensures a < 0 ==> CeilingBand(q, a, b)
  {
    if a >= 0 then a / b else -((-a) / b)
  }

  function Max(a: nat, b: nat): nat {
    if a >= b then a else b
  }

  /**
   The new dimensions: both sides multiplied by `pixelMax / max(w, h)` and
   truncated. An image whose sides are both 0 divides by zero.
   */
  function ThumbnailSize(width: nat, height: nat, pixelMax: int): (r: Result<Size>)
    ensures r.Err? <==> width == 0 && height == 0
    ensures r.Err? ==> r.error == ZeroDivisionError
    ensures r.Ok? && width >= height ==> r.value.width == pixelMax
    ensures r.Ok? && height >= width ==> r.value.height == pixelMax
    ensures r.Ok? && pixelMax >= 0 ==>
      && 0 <= r.value.width <= pixelMax
      && 0 <= r.value.height <= pixelMax
      && FloorBand(r.value.width, width * pixelMax, Max(width, height))
      && FloorBand(r.value.height, height * pixelMax, Max(width, height))
  {
    var m := Max(width, height);
    if m == 0 then Err(ZeroDivisionError)
    else
      ScaledSideBound(width, m, pixelMax);
      ScaledSideBound(height, m, pixelMax);
      Ok(Size(TruncDiv(width * pixelMax, m), TruncDiv(height * pixelMax, m)))
  }

  /** The longer side scales to exactly `pixelMax`; no side scales past it. */
  lemma ScaledSideBound(side: nat, m: nat, pixelMax: int)
    requires side <= m && m > 0
    ensures side == m ==> TruncDiv(side * pixelMax, m) == pixelMax
    ensures pixelMax >= 0 ==> 0 <= TruncDiv(side * pixelMax, m) <= pixelMax
  {
    if side == m {
      LongerSideScales(m, pixelMax);
    }
    if pixelMax >= 0 {
      ScaledSideWithin(side, m, pixelMax);
    }
  }

  lemma LongerSideScales(m: nat, pixelMax: int)
    requires m > 0
    ensures TruncDiv(m * pixelMax, m) == pixelMax
  {
    if pixelMax >= 0 {
      MulDivCancel(m, pixelMax);
    } else {
      assert -(m * pixelMax) == m * -pixelMax;
      MulDivCancel(m, -pixelMax);
    }
  }

  lemma ScaledSideWithin(side: nat, m: nat, pixelMax: int)
    requires side <= m && m > 0 && pixelMax >= 0
    ensures 0 <= TruncDiv(side * pixelMax, m) <= pixelMax
  {
    var q := TruncDiv(side * pixelMax, m);
    MulNonNegative(side, pixelMax);
    MulMonotone(side, m, pixelMax);
    BandBelow(q, side * pixelMax, m, pixelMax);
    BandNonNegative(q, side * pixelMax, m);
  }

  /**
   Truncation, not flooring: a negative `pixelMax` gives exactly the
   negated sizes of its absolute value. These are the only inputs on which
   truncation and flooring differ, and in the program they do not get past
   the resize at main.py:36, which rejects a side below 1.
   */
  lemma ThumbnailSizeNegates(width: nat, height: nat, pixelMax: int)
    requires width > 0 || height > 0
    ensures ThumbnailSize(width, height, -pixelMax).value.width == -ThumbnailSize(width, height, pixelMax).value.width
    ensures ThumbnailSize(width, height, -pixelMax).value.height == -ThumbnailSize(width, height, pixelMax).value.height
  {
    var m := Max(width, height);
    assert width * -pixelMax == -(width * pixelMax);
    assert height * -pixelMax == -(height * pixelMax);
  }

  /** Resizing keeps the orientation: the shorter side stays the shorter. */
  lemma ThumbnailKeepsOrientation(width: nat, height: nat, pixelMax: nat)
    requires width <= height && height > 0
    ensures ThumbnailSize(width, height, pixelMax).value.width <= ThumbnailSize(width, height, pixelMax).value.height
  {
    var m := Max(width, height);
    assert width * pixelMax <= height * pixelMax;
    MonotoneDiv(width * pixelMax, height * pixelMax, m);
  }

  // ---------------------------------------------------------------------
  // File names

  /** `f"{r}_{g}_{b}.png"` */
  function ColourFileName(c: Rgb): string {
    Decimal(c.r) + "_" + Decimal(c.g) + "_" + Decimal(c.b) + ".png"
  }

  /** `f"{nom_sortie}.png"` for a string, the colour form for a triple. */
  function FileName(key: NameKey): (name: string)
    ensures EndsWith(name, ".png")
    ensures key.Named? ==> name[..|name| - 4] == key.name
    ensures key.Keyed? ==> ParseColourFileName(name) == Some(key.colour)
  {
    match key
    case Named(n) => n + ".png"
    case Keyed(c) =>
      ColourFileNameRoundTrip(c);
      ColourFileName(c)
  }

  /** Reads a colour back from a name of the form `r_g_b.png`. */
  function ParseColourFileName(name: string): Option<Rgb> {
    if !EndsWith(name, ".png") then None
    else match SplitFirst(name[..|name| - 4], '_')
      case None => None
      case Some((r, rest)) =>
        match SplitFirst(rest, '_')
        case None => None
        case Some((g, b)) =>
          if AllDigits(r) && AllDigits(g) && AllDigits(b)
             && DecimalValue(r) < 256 && DecimalValue(g) < 256 && DecimalValue(b) < 256
          then Some(Rgb(DecimalValue(r), DecimalValue(g), DecimalValue(b)))
          else None
  }

  lemma DigitsHaveNoUnderscore(s: string)
    requires AllDigits(s)
    ensures '_' !in s
  {
  }

  /** A colour file name starts with a digit, so it is a relative name. */
  lemma ColourFileNameHead(c: Rgb)
    ensures |ColourFileName(c)| > 0 && ColourFileName(c)[0] != '/'
  {
    var d := Decimal(c.r);
    var rest := "_" + Decimal(c.g) + "_" + Decimal(c.b) + ".png";
    assert ColourFileName(c) == d + rest;
    assert (d + rest)[0] == d[0];
  }

  /** The colour file name can be read back, so the name identifies the colour. */
  lemma ColourFileNameRoundTrip(c: Rgb)
    ensures ParseColourFileName(ColourFileName(c)) == Some(c)
  {
    var r, g, b := Decimal(c.r), Decimal(c.g), Decimal(c.b);
    var name := ColourFileName(c);
    var body := r + "_" + g + "_" + b;
    assert name == body + ".png";
    assert name[..|name| - 4] == body;
    DigitsHaveNoUnderscore(r);
    DigitsHaveNoUnderscore(g);
    assert body == r + ['_'] + (g + "_" + b);
    SplitFirstOfJoin(r, '_', g + "_" + b);
    assert g + "_" + b == g + ['_'] + b;
    SplitFirstOfJoin(g, '_', b);
    DecimalRoundTrip(c.r);
    DecimalRoundTrip(c.g);
    DecimalRoundTrip(c.b);
  }

  /** Distinct colours are saved under distinct names. */
  lemma ColourFileNameInjective(c: Rgb, d: Rgb)
    ensures ColourFileName(c) == ColourFileName(d) <==> c == d
  {
    ColourFileNameRoundTrip(c);
    ColourFileNameRoundTrip(d);
  }

  /**
   `creer_et_redimensionner_image` minus the pixels: the path the resized
   copy is written to and its size.
   */
  function CreateThumbnail(img: Image, key: NameKey, pixelMax: int, dir: string): (r: Result<Thumb>)
    ensures r.Err? <==> img.width == 0 && img.height == 0
    ensures r.Ok? ==> EndsWith(r.value.path, ".png")
    ensures r.Ok? && img.width >= img.height ==> r.value.size.width == pixelMax
    ensures r.Ok? && img.height >= img.width ==> r.value.size.height == pixelMax
  {
    match ThumbnailSize(img.width, img.height, pixelMax)
    case Err(e) => Err(e)
    case Ok(size) =>
      PathEndsInPng(dir, key);
      Ok(Thumb(PathJoin(dir, FileName(key)), size))
  }

  /** The saved file's path ends in `.png`, whatever the directory. */
  lemma PathEndsInPng(dir: string, key: NameKey)
    ensures EndsWith(PathJoin(dir, FileName(key)), ".png")
  {
    var n, path := FileName(key), PathJoin(dir, FileName(key));
    PathJoinShape(dir, n);
    assert path[|path| - 4..] == n[|n| - 4..];
  }
}
